=== FILE: README.md ===
# Device settings and file selection: a Dafny model

This project models the pure logic of a desktop settings application. The
application has two parts:

- a native backend with three commands: fetch a device's settings, save them,
  and analyse a list of files and folders;
- a React front end with a per-device settings card, a tab bar of enabled
  settings, and a files-and-folders panel that collects files from drag-and-drop
  or from a file picker.

The model covers the parts of that code whose behaviour can be stated exactly.
Each is an immutable datatype plus pure functions or event transitions, and
lemmas relate each operation to its partner: an inverse, a direct reference
definition, or an invariant.

| module | file | models |
|---|---|---|
| `Results` | results.dfy | `Option` and `Result` |
| `Text` | text.dfy | ASCII case mapping, `split`/`join` with their round trips, decimal rendering with its inverse |
| `SettingsMerge` | settings_merge.dfy | `Settings::default` and the merge of the fetched rows into a `Settings` record (`src-tauri/src/main.rs`) |
| `ItemAnalysis` | item_analysis.dfy | `analyze_files_and_folders`, `analyze_item`, `get_item_type_and_extension`, `format_size` (`src-tauri/src/main.rs`) |
| `FilePanel` | file_panel.dfy | the files-and-folders panel state and its event handlers |
| `SettingNames` | setting_names.dfy | `formatSettingName` |
| `SettingsCard` | settings_card.dfy | settings validation, `handleToggle`, the loading condition |
| `SettingsTabs` | settings_tabs.dfy | the enabled-settings filter and the tab value/title mapping |
| `Devices` | devices.dfy | `toggleSettings` / `handleDeviceChange` and when the settings card is visible |

The files-and-folders panel keeps a flat list of `{name, size, type}`
projections of the chosen files. It appends to the list with no
de-duplication and removes entries by position. The front end never calls the
analysis command, so the backend analysis and the panel are modelled
separately.

How the code behaves where one might expect otherwise:

- `analyze_item` never returns `Err`. Its only error path would propagate a
  child's error, and nothing at the bottom of the tree produces one.
  `AnalyzeAll` states the all-or-nothing collection, and `AnalyzeItemSucceeds` /
  `AnalyzeAllSucceeds` prove that the result is always `Ok`. A panic is a
  different matter: see `ItemAnalysis.FormatTime` under "Left out".
- In `Settings::default`, the files-and-folders entry reuses the screen
  description text.
- A fetch that returns a valid object does not clear an earlier error line.
  Only a successful save does.

## Model

| member | source | states |
|---|---|---|
| `Text.CapitalizeFirst` | frontend/src/components/SettingsCard.jsx:7-9 | the result has the input's length; its first character is the input's first character upper-cased, and everything after it is kept; the empty string stays empty |
| `Text.CapitalizeFirstIdempotent` | frontend/src/components/SettingsCard.jsx:7-9 | capitalizing twice equals capitalizing once, and the result never starts with a lower-case letter |
| `Text.JoinSplit` | frontend/src/utils/utils.js:7-14 | joining the pieces of a split with the same separator gives back the string |
| `Text.SplitJoin` | frontend/src/utils/utils.js:7-14 | splitting a join of separator-free words gives back the words |
| `Text.DecimalRoundTrip` | src-tauri/src/main.rs:285 | the decimal rendering of a count can be read back as that count |
| `SettingsMerge.KeyOf` | src-tauri/src/main.rs:110-120 | a name selects a field exactly when it is one of the eight serialized field names |
| `SettingsMerge.KeyNameRoundTrip` | src-tauri/src/main.rs:110-118 | each field's serialized name selects that field |
| `SettingsMerge.Set` | src-tauri/src/main.rs:111-118 | replacing one field leaves the other seven unchanged |
| `SettingsMerge.Default` | src-tauri/src/main.rs:32-69 | all eight items are disabled and carry their fixed descriptions |
| `SettingsMerge.MergeRows` | src-tauri/src/main.rs:102-128 | no rows gives the defaults, and a field differs from its default only when the last row's settings object stores an object under the field's name (`MergeRowsSpec` gives its value) |
| `SettingsMerge.Lookup` | src-tauri/src/main.rs:104-108 | a key is found exactly when some entry has it, and the value returned is stored under it |
| `SettingsMerge.ParseItem` | src-tauri/src/main.rs:106-109 | `enabled` is true only for a JSON `true`; the description is the JSON string, else empty |
| `SettingsMerge.MergeEntriesField` | src-tauri/src/main.rs:105-122 | after the loop, each field holds the item parsed from the last object stored under its name, or its earlier value |
| `SettingsMerge.LastObjectIsLookup` | src-tauri/src/main.rs:104-106 | in a key-unique object, the last object under a key is the key's value when that value is an object |
| `SettingsMerge.MergeRowsSpec` | src-tauri/src/main.rs:99-128 | each merged field equals the item parsed from the last row's object under its name, otherwise the default |
| `SettingsMerge.MergeRowsUsesLastRow` | src-tauri/src/main.rs:102 | rows before the last do not affect the result |
| `SettingsMerge.MergeIgnoresUnknown` | src-tauri/src/main.rs:106-120 | an unknown key or a non-object value leaves the settings unchanged |
| `SettingsMerge.MergeWithoutEntries` | src-tauri/src/main.rs:102-128 | a last row without a settings object, or with an empty one, yields the defaults |
| `SettingsMerge.ParseResponse` | src-tauri/src/main.rs:99-134 | a body succeeds exactly when it is a JSON array; an empty array gives the defaults; anything else is a parse error |
| `ItemAnalysis.FormatSize` | src-tauri/src/main.rs:273-287 | exact bytes iff under 1024; KB iff 1024 ≤ n < 1024², MB iff 1024² ≤ n < 1024³, GB iff n ≥ 1024³; the bytes text ends in " bytes" |
| `ItemAnalysis.FormatSizeBytesRoundTrip` | src-tauri/src/main.rs:284-286 | below one kilobyte the text is a decimal numeral with no leading zero followed by " bytes", and the count reads back from it, so the text is the one `{}` renders |
| `ItemAnalysis.FileName` | src-tauri/src/main.rs:245-246 | the file name, when there is one, is a single component that is neither empty, "." nor "..", made only of characters of the path; a plain name is its own file name |
| `ItemAnalysis.FileNameOfLastComponent` | src-tauri/src/main.rs:245-246 | the file name of `dir/file` is `file`, the last component, whatever the directory part |
| `ItemAnalysis.ExtensionOf` | src-tauri/src/main.rs:245-249 | the extension is the text after the last dot; there is none for no dot, a leading-only dot, or ".." |
| `ItemAnalysis.ItemTypeAndExtension` | src-tauri/src/main.rs:240-266 | the type is "Directory" exactly for the MIME type "directory", which has no extension; a name without a dot has no extension (`ClassificationPrecedence` and `ExtensionOfPlainName` give the rest) |
| `ItemAnalysis.DirectoryClassification` | src-tauri/src/main.rs:240-243 | the MIME type "directory" gives ("Directory", "") whatever the name |
| `ItemAnalysis.ClassificationPrecedence` | src-tauri/src/main.rs:251-263 | each type is chosen exactly when its rule matches and no earlier rule does, in the order Audio, Video, Text, Executable, Image, Other |
| `ItemAnalysis.ExtensionOfPlainName` | src-tauri/src/main.rs:245-249 | for any name without a '/' (including "", "." and "..") the extension is the lower-cased text after the last dot; it is empty with no dot or a leading-only dot |
| `ItemAnalysis.ExtensionOfLastComponent` | src-tauri/src/main.rs:245-249 | only the last path component decides the extension |
| `ItemAnalysis.AnalyzeItem` | src-tauri/src/main.rs:208-237 | a successful analysis satisfies `Describes`: id and path from the path, name kept, three equal timestamps, size and type of the item, and children only for directories, mapped one to one and in order |
| `ItemAnalysis.AnalyzeAll` | src-tauri/src/main.rs:203-206 | succeeds iff every item does; then it returns one description per item, in order; otherwise it returns an error of one of the items |
| `ItemAnalysis.DescribesUnique` | src-tauri/src/main.rs:208-237 | the description promise determines the result completely |
| `ItemAnalysis.AnalyzeItemSucceeds` | src-tauri/src/main.rs:208-237 | analysis of an item never returns an error, at any depth |
| `ItemAnalysis.AnalyzeAllSucceeds` | src-tauri/src/main.rs:204-206 | analysis of a list never returns an error |
| `ItemAnalysis.ChildrenOnlyForDirectories` | src-tauri/src/main.rs:218-222 | a non-directory gets no children even if some were submitted; a directory without children keeps none |
| `ItemAnalysis.ChildrenAnalysedInOrder` | src-tauri/src/main.rs:218-222 | a directory's child descriptions are the analyses of its children, one for one, in order |
| `FilePanel.Step` | frontend/src/components/SettingsSections/FilesAndFolders.jsx:9-83 | only drops, picker changes and removals change the selection; a delivery clears both flags and keeps the old list as a prefix, grown by the number of files; a removal never grows it and leaves the flags alone |
| `FilePanel.Label` | frontend/src/components/SettingsSections/FilesAndFolders.jsx:108-118 | the idle prompt shows exactly when the zone is not highlighted (`LabelSpec` gives the other two prompts) |
| `FilePanel.AddFiles` | frontend/src/components/SettingsSections/FilesAndFolders.jsx:63-70 | existing entries are kept as a prefix, and the projections of the new files follow in order |
| `FilePanel.Without` | frontend/src/components/SettingsSections/FilesAndFolders.jsx:81-83 | an in-range index shortens the list by one; any other index leaves it unchanged |
| `FilePanel.RemoveFile` | frontend/src/components/SettingsSections/FilesAndFolders.jsx:81-83 | the position filter removes exactly the entry at the index; an out-of-range index removes nothing |
| `FilePanel.RemoveSpec` | frontend/src/components/SettingsSections/FilesAndFolders.jsx:81-83 | entries before the index stay in place, later ones shift down by one, and the multiset loses exactly the removed entry |
| `FilePanel.RemoveUndoesAdd` | frontend/src/components/SettingsSections/FilesAndFolders.jsx:63-83 | removing the entry just dropped restores the earlier list |
| `FilePanel.NoDeduplication` | frontend/src/components/SettingsSections/FilesAndFolders.jsx:63-70 | dropping the same file twice lists it twice |
| `FilePanel.DeliveryAppends` | frontend/src/components/SettingsSections/FilesAndFolders.jsx:41-61 | a drop or a picker change clears both flags and appends the files; the two events act alike |
| `FilePanel.FocusDisarms` | frontend/src/components/SettingsSections/FilesAndFolders.jsx:9-75 | window focus and picker blur clear both flags and keep the selection, so the idle prompt shows |
| `FilePanel.ArmingEvents` | frontend/src/components/SettingsSections/FilesAndFolders.jsx:22-79 | drag-enter sets the drag flag; click and picker focus set the picker flag; nothing else changes |
| `FilePanel.DragLeaveAndOver` | frontend/src/components/SettingsSections/FilesAndFolders.jsx:28-39 | leaving clears the drag flag only when the event targets the zone itself; drag-over changes nothing |
| `FilePanel.LabelSpec` | frontend/src/components/SettingsSections/FilesAndFolders.jsx:103-118 | the drop prompt iff the drag flag is set; the picker prompt iff only the picker flag is set; the idle prompt iff the zone is not highlighted |
| `FilePanel.SelectionOnlyChangesByFilesOrRemove` | frontend/src/components/SettingsSections/FilesAndFolders.jsx:9-83 | any run of events without drops, picker changes or removals keeps the selection |
| `FilePanel.SelectionSizeBound` | frontend/src/components/SettingsSections/FilesAndFolders.jsx:41-83 | the selection grows by at most one entry per delivered file |
| `FilePanel.RunFromMount` | frontend/src/components/SettingsSections/FilesAndFolders.jsx:3-118 | from the mounted state the idle prompt shows, and the selection never holds more entries than the files delivered |
| `SettingNames.FormatWordKeepsNonLetter` | frontend/src/utils/utils.js:9-12 | word formatting never introduces a space or an underscore |
| `SettingNames.FormatSettingName` | frontend/src/utils/utils.js:2-15 | the title contains no underscore and has the key's length (`FormatSettingNameWords` gives its words and how each is formatted) |
| `SettingNames.FormatSettingNameWords` | frontend/src/utils/utils.js:3-14 | the title has as many space-separated words as the key; the first word is capitalized even when it is a stop word; later stop words are lower-cased; other words are capitalized |
| `SettingNames.FilesAndFoldersTitle` | frontend/src/utils/utils.js:2-15 | "files_and_folders" becomes "Files and Folders" |
| `SettingsCard.Toggle` | frontend/src/components/SettingsCard.jsx:73-79 | the keys, and their order, are unchanged |
| `SettingsCard.ToggleSpec` | frontend/src/components/SettingsCard.jsx:73-79 | only the toggled key's `enabled` is negated; its description and every other entry are unchanged |
| `SettingsCard.ToggleTwice` | frontend/src/components/SettingsCard.jsx:72-79 | toggling one key twice restores the settings |
| `SettingsCard.ArrayEntries` | frontend/src/components/SettingsCard.jsx:57-58 | an array accepted as settings is keyed by its positions in decimal, which are distinct |
| `SettingsCard.ApplyFetch` | frontend/src/components/SettingsCard.jsx:44-66 | an object replaces the settings and an array gives its positions as keys; either keeps the error line; a rejection sets the error line to its message; any other value keeps the settings and sets an error |
| `SettingsCard.InvalidFetchReported` | frontend/src/components/SettingsCard.jsx:57-61 | a value that is not a non-null object sets the invalid-data error and keeps the settings |
| `SettingsCard.HandleToggle` | frontend/src/components/SettingsCard.jsx:72-98 | the toggled settings are shown whatever the save does; the error line is cleared iff the save succeeds |
| `SettingsCard.Loading` | frontend/src/components/SettingsCard.jsx:104 | the placeholder shows exactly when the settings object has no entries (`LoadingSpec` says when that changes) |
| `SettingsCard.LoadingSpec` | frontend/src/components/SettingsCard.jsx:41-104 | the card starts loading; a fetched object ends loading iff it is non-empty; a toggle needs loaded settings and keeps them loaded |
| `SettingsTabs.TabFor` | frontend/src/components/SettingsTabs.jsx:13-20 | a tab's value is the raw key |
| `SettingsTabs.EnabledKeys` | frontend/src/components/SettingsTabs.jsx:8 | the filter keeps no more keys than there are settings |
| `SettingsTabs.EnabledKeysMembership` | frontend/src/components/SettingsTabs.jsx:8 | a key passes the filter exactly when some enabled entry has it |
| `SettingsTabs.Tabs` | frontend/src/components/SettingsTabs.jsx:8-20 | one tab per enabled key, in the filter's order, valued by that key; never more tabs than settings (`TabValuesAreEnabledKeys` gives the titles) |
| `SettingsTabs.TabsMembership` | frontend/src/components/SettingsTabs.jsx:8-13 | a tab is shown iff it is the tab of an enabled entry |
| `SettingsTabs.TabsExactlyEnabled` | frontend/src/components/SettingsTabs.jsx:8-13 | each setting has a tab iff it is enabled; disabled settings never have one |
| `SettingsTabs.TabValuesAreEnabledKeys` | frontend/src/components/SettingsTabs.jsx:8-20 | every tab's value is an enabled key, and its title is that key's formatted name |
| `SettingsTabs.EnabledPositions` | frontend/src/components/SettingsTabs.jsx:8-13 | the tabs come from strictly increasing positions of enabled entries, and every enabled position is included, so the settings' order is kept |
| `Devices.ToggleSettings` | frontend/src/components/DevicesAndData.jsx:16-18 | the active device is unchanged; the panel closes exactly when it was that device's, and otherwise opens for that device |
| `Devices.DeviceChange` | frontend/src/components/DevicesAndData.jsx:20-23 | changing device sets the active device, reports it to the parent, and leaves the open panel alone |
| `Devices.ToggleSpec` | frontend/src/components/DevicesAndData.jsx:16-18 | toggling opens the panel when it is closed, closes the device's own panel, and switches from another device's panel |
| `Devices.ToggleTwiceFromClosed` | frontend/src/components/DevicesAndData.jsx:16-18 | starting from a closed panel, two toggles of one device leave it closed |
| `Devices.SettingsButtonSpec` | frontend/src/components/DevicesAndData.jsx:7-64 | the card starts hidden, and the settings button flips whether it is visible |
| `Devices.DeviceChangeKeepsPanel` | frontend/src/components/DevicesAndData.jsx:20-64 | switching away hides the card, and switching back shows it again |

## Left out

- HTTP and database calls, environment variables, logging, and the application builder (`get_device_settings` outside its merge, all of `save_device_settings`, `main`): network and process plumbing.
- Parsing the response text: the merge starts from the parsed JSON value. A body that is not valid JSON fails like a non-array body, and the model cannot represent it.
- The wording of the serializer's error message: the parse error keeps only its fixed prefix.
- JSON objects with a repeated key: serde_json keeps one entry per key. The merge lemmas assume key-unique objects. The settings card's objects are key-unique by type.
- The `Mutex<Settings>` application state: it is never read.
- Deserialization of submitted items, which happens before the command runs, and the item `contents`, which the analysis ignores.
- ItemAnalysis.FormatSize: above one kilobyte the label records the unit and the byte count, not the two-decimal floating-point text.
- ItemAnalysis.FormatTime: the RFC 3339 text of the timestamp is abstract; it records the milliseconds since the epoch it renders. The model is total, but the source is not: converting the time to a UTC date unwraps chrono's range check. A `lastModified` beyond the latest date chrono represents (year 262143, about 8.2e15 ms, well inside the u64 range) makes the command panic rather than return. The success lemmas `AnalyzeItemSucceeds` and `AnalyzeAllSucceeds` therefore mean "never returns Err", not "always returns".
- ItemAnalysis.FileName: only '/'-separated paths are modelled. Windows separators and prefixes, and non-UTF-8 names, are not.
- Non-ASCII case mapping: upper- and lower-casing is modelled for ASCII letters only, and other characters are unchanged. Full Unicode mapping can change a string's length.
- SettingsCard.ApplyFetch: every entry of a fetched object or array is assumed to be `{enabled: boolean, description: string}`. The card checks only that the fetched value is a non-null object. A stored value such as `{"screen": 1}`, `{"screen": {"enabled": "yes"}}` or `[null]` is accepted there, and the model cannot represent it. For such values `ToggleTwice` need not hold, since the first toggle writes `{enabled: true}` over the entry; `TabsExactlyEnabled` relies on the truthiness of a boolean; and a `null` item makes the tab filter throw. The backend's `get_device_settings` and `handleToggle` only ever produce entries of that shape.
- SettingsCard.Toggle: requires the key to be present. The source reads the missing entry's `enabled` and throws.
- The order in which JavaScript lists an object's integer-like keys (ascending, before the other keys) is not modelled. Entries keep the order in which they were received.
- SettingsCard.HandleToggle: the awaited save is treated as settling before the next event, so the toggle and its save outcome form one step. In the source a second toggle can run while the first save is pending, the saves can settle in either order, and the error line then shows whichever settled last.
- Tauri `invoke` and `localStorage`: each fetch is a `FetchOutcome` parameter and each save a `SaveOutcome` parameter. What is written to storage is not modelled.
- The click that opens the native file picker, `preventDefault`/`stopPropagation`, and the parent's `onDeviceSelect` callback. The callback is modelled as the device returned by `DeviceChange`.
- Styling, the rendered lists and rows, the device list, icons and tab chrome: view code with nothing to state.

=== FILE: devices.dfy ===
/** The devices view: the device tab that is active, and which device's
    settings panel, if any, is open. The settings card shows only when the
    open panel belongs to the active device. */
module Devices {
  import opened Results

  datatype View = View(activeDevice: string, showSettings: Option<string>)

  /** The state on mount: the first device active, no panel open. */
  const InitialView := View("Surface 10", None)

  /** `toggleSettings(device)`: closes the panel if it is that device's,
      otherwise opens that device's panel. */
  function ToggleSettings(v: View, device: string): (r: View)
    ensures r.activeDevice == v.activeDevice
    ensures r.showSettings.None? <==> v.showSettings == Some(device)
    ensures r.showSettings.Some? ==> r.showSettings.value == device
  {
    v.(showSettings := if v.showSettings == Some(device) then None else Some(device))
  }

  /** `handleDeviceChange(device)`: the new active device, and the device
      reported to the parent view. */
  function DeviceChange(v: View, device: string): (r: (View, string))
    ensures r.0.showSettings == v.showSettings
    ensures r.0.activeDevice == device && r.1 == device
  {
    (v.(activeDevice := device), device)
  }

  /** The settings button toggles the panel of the active device. */
  function PressSettingsButton(v: View): View {
    ToggleSettings(v, v.activeDevice)
  }

  /** The settings card of the active device is shown instead of the
      placeholder text. */
  predicate CardVisible(v: View) {
    v.showSettings == Some(v.activeDevice)
  }

  /** Toggling opens the device's panel when none is open, closes it when it
      is that device's, and switches to it when another device's is open. */
  lemma ToggleSpec(v: View, device: string)
    ensures v.showSettings.None? ==> ToggleSettings(v, device).showSettings == Some(device)
    ensures v.showSettings == Some(device) ==> ToggleSettings(v, device).showSettings.None?
    ensures v.showSettings.Some? && v.showSettings.value != device ==>
              ToggleSettings(v, device).showSettings == Some(device)
    ensures ToggleSettings(v, device).activeDevice == v.activeDevice
  {
  }

  /** Two toggles of one device from a closed panel leave it closed. */
  lemma ToggleTwiceFromClosed(v: View, device: string)
    requires v.showSettings.None?
    ensures ToggleSettings(ToggleSettings(v, device), device) == v
  {
  }

  /** The card starts hidden; the settings button shows it when it is hidden
      and hides it when it is shown. */
  lemma SettingsButtonSpec(v: View)
    ensures !CardVisible(InitialView)
    ensures CardVisible(PressSettingsButton(v)) <==> !CardVisible(v)
  {
  }

  /** Switching device keeps the open panel: the card hides on another
      device and shows again on returning to the panel's device. */
  lemma DeviceChangeKeepsPanel(v: View, other: string)
    requires CardVisible(v) && other != v.activeDevice
    ensures !CardVisible(DeviceChange(v, other).0)
    ensures DeviceChange(DeviceChange(v, other).0, v.activeDevice).0 == v
  {
  }
}

=== FILE: file_panel.dfy ===
/** The files-and-folders panel: a drop zone with a hidden file picker, two
    "armed" flags that drive its highlighting and prompt, and the ordered list
    of files selected so far. Each user-interface event is a transition. */
module FilePanel {

  /** A browser `File` as delivered by a drop or a picker change. */
  datatype BrowserFile = BrowserFile(name: string, size: nat, mimeType: string, lastModified: nat)

  /** What the panel keeps of a file: its name, size and type. */
  datatype FileEntry = FileEntry(name: string, size: nat, mimeType: string)

  datatype Panel = Panel(dragActive: bool, pickerActive: bool, selected: seq<FileEntry>)

  /** The state on mount: nothing armed, nothing selected. */
  const Initial := Panel(false, false, [])

  datatype Event =
    | DragEnter
    | DragLeave(fromDropZone: bool)   // whether the event's target is the drop zone itself
    | DragOver
    | Drop(files: seq<BrowserFile>)
    | Click
    | InputChange(files: seq<BrowserFile>)
    | InputFocus
    | InputBlur
    | WindowFocus
    | Remove(index: int)

  function Project(f: BrowserFile): FileEntry {
    FileEntry(f.name, f.size, f.mimeType)
  }

  /** `addFiles`: the projections of the new files appended after the
      existing entries, in order, with no de-duplication. */
  function AddFiles(selected: seq<FileEntry>, files: seq<BrowserFile>): (r: seq<FileEntry>)
    ensures |r| == |selected| + |files|
    ensures r[..|selected|] == selected
    ensures forall i :: 0 <= i < |files| ==> r[|selected| + i] == Project(files[i])
    decreases |files|
  {
    if |files| == 0 then selected
    else AddFiles(selected + [Project(files[0])], files[1..])
  }

  /** The list without its entry at `index`; unchanged for any index that
      names no entry. */
  function Without(selected: seq<FileEntry>, index: int): (r: seq<FileEntry>)
    ensures 0 <= index < |selected| ==> |r| == |selected| - 1
    ensures !(0 <= index < |selected|) ==> r == selected
  {
    if 0 <= index < |selected| then selected[..index] + selected[index + 1..] else selected
  }

  /** `removeFile`, as the filter it is written as: keep every entry whose
      position differs from `index`. */
  method RemoveFile(selected: seq<FileEntry>, index: int) returns (r: seq<FileEntry>)
    ensures r == Without(selected, index)
  {
    r := [];
    var k := 0;
    while k < |selected|
      invariant 0 <= k <= |selected|
      invariant r == if 0 <= index < k then selected[..index] + selected[index + 1..k] else selected[..k]
    {
      if k != index {
        r := r + [selected[k]];
      }
      k := k + 1;
    }
    assert selected[..|selected|] == selected;
  }

  /** The transition for one event. */
  function Step(p: Panel, e: Event): (q: Panel)
    ensures !(e.Drop? || e.InputChange? || e.Remove?) ==> q.selected == p.selected
    ensures e.Drop? || e.InputChange? ==>
      && !q.dragActive && !q.pickerActive
      && |q.selected| == |p.selected| + |e.files|
      && q.selected[..|p.selected|] == p.selected
    ensures e.Remove? ==> |q.selected| <= |p.selected| && q.dragActive == p.dragActive && q.pickerActive == p.pickerActive
  {
    match e
    case DragEnter => p.(dragActive := true)
    case DragLeave(fromDropZone) => if fromDropZone then p.(dragActive := false) else p
    case DragOver => p
    case Drop(files) => Panel(false, false, AddFiles(p.selected, files))
    case Click => p.(pickerActive := true)
    case InputChange(files) => Panel(false, false, AddFiles(p.selected, files))
    case InputFocus => p.(pickerActive := true)
    case InputBlur => Panel(false, false, p.selected)
    case WindowFocus => Panel(false, false, p.selected)
    case Remove(index) => p.(selected := Without(p.selected, index))
  }

  /** The state after a sequence of events, in order. */
  function Run(p: Panel, events: seq<Event>): Panel
    decreases |events|
  {
    if |events| == 0 then p else Run(Step(p, events[0]), events[1..])
  }

  /** The prompt inside the drop zone. */
  datatype Prompt = DropHere | AddFromDevice | DragOrClick

  function Label(p: Panel): (l: Prompt)
    ensures l == DragOrClick <==> !Highlighted(p)
  {
    if p.dragActive then DropHere else if p.pickerActive then AddFromDevice else DragOrClick
  }

  /** The drop zone is highlighted exactly when some flag is armed. */
  predicate Highlighted(p: Panel) {
    p.dragActive || p.pickerActive
  }

  /** The prompt follows the flags with the drag flag taking precedence, and
      the idle prompt shows exactly when the zone is not highlighted. */
  lemma LabelSpec(p: Panel)
    ensures Label(p) == DropHere <==> p.dragActive
    ensures Label(p) == AddFromDevice <==> !p.dragActive && p.pickerActive
    ensures Label(p) == DragOrClick <==> !Highlighted(p)
  {
  }

  /** Dropping files and choosing them in the picker disarm both flags and
      append the files. */
  lemma DeliveryAppends(p: Panel, files: seq<BrowserFile>)
    ensures var q := Step(p, Drop(files));
      && !q.dragActive && !q.pickerActive
      && |q.selected| == |p.selected| + |files|
      && q.selected[..|p.selected|] == p.selected
      && forall i :: 0 <= i < |files| ==> q.selected[|p.selected| + i] == Project(files[i])
    ensures Step(p, InputChange(files)) == Step(p, Drop(files))
  {
  }

  /** Window focus and picker blur disarm both flags; the selection stays. */
  lemma FocusDisarms(p: Panel)
    ensures var q := Step(p, WindowFocus); !q.dragActive && !q.pickerActive && q.selected == p.selected
    ensures Step(p, InputBlur) == Step(p, WindowFocus)
    ensures Label(Step(p, WindowFocus)) == DragOrClick
  {
  }

  /** Entering the zone arms the drag flag; clicking it or focusing the picker
      arms the picker flag; none of these touches the other flag or the
      selection. */
  lemma ArmingEvents(p: Panel)
    ensures Step(p, DragEnter) == Panel(true, p.pickerActive, p.selected)
    ensures Step(p, Click) == Panel(p.dragActive, true, p.selected)
    ensures Step(p, InputFocus) == Panel(p.dragActive, true, p.selected)
    ensures Label(Step(p, DragEnter)) == DropHere
  {
  }

  /** Leaving disarms the drag flag only when the zone itself is left (not
      one of its children); hovering changes nothing. */
  lemma DragLeaveAndOver(p: Panel)
    ensures Step(p, DragLeave(true)) == Panel(false, p.pickerActive, p.selected)
    ensures Step(p, DragLeave(false)) == p
    ensures Step(p, DragOver) == p
  {
  }

  /** The same file added twice is listed twice. */
  lemma NoDeduplication(p: Panel, f: BrowserFile)
    ensures var q := Step(Step(p, Drop([f])), Drop([f]));
      && |q.selected| == |p.selected| + 2
      && q.selected[|p.selected|] == q.selected[|p.selected| + 1] == Project(f)
  {
    var q1 := Step(p, Drop([f]));
    assert q1.selected[|p.selected|] == Project(f);
    var q := Step(q1, Drop([f]));
    assert q.selected[..|q1.selected|] == q1.selected;
  }

  /** Removing entry `index` drops exactly that entry: the others keep their
      relative order, and the multiset of entries loses one copy of it. */
  lemma RemoveSpec(selected: seq<FileEntry>, index: int)
    requires 0 <= index < |selected|
    ensures var r := Without(selected, index);
      && (forall i :: 0 <= i < index ==> r[i] == selected[i])
      && (forall i :: index <= i < |r| ==> r[i] == selected[i + 1])
      && multiset(r) + multiset{selected[index]} == multiset(selected)
  {
    assert selected == selected[..index] + [selected[index]] + selected[index + 1..];
  }

  /** Removing the entry just added gives back the earlier list. */
  lemma RemoveUndoesAdd(p: Panel, f: BrowserFile)
    ensures Step(Step(p, Drop([f])), Remove(|p.selected|)).selected == p.selected
  {
    var q := Step(p, Drop([f]));
    assert q.selected == p.selected + [Project(f)];
  }

  /** Events that deliver no files and remove nothing never change the
      selection, however many of them occur. */
  lemma {:induction false} SelectionOnlyChangesByFilesOrRemove(p: Panel, events: seq<Event>)
    requires forall e <- events :: !e.Drop? && !e.InputChange? && !e.Remove?
    ensures Run(p, events).selected == p.selected
    decreases |events|
  {
    if |events| > 0 {
      assert events[0] in events;
      assert forall e <- events[1..] :: e in events;
      SelectionOnlyChangesByFilesOrRemove(Step(p, events[0]), events[1..]);
    }
  }

  /** The selection grows by at most one entry per delivered file. */
  lemma {:induction false} SelectionSizeBound(p: Panel, events: seq<Event>)
    ensures |Run(p, events).selected| <= |p.selected| + Delivered(events)
    decreases |events|
  {
    if |events| > 0 {
      SelectionSizeBound(Step(p, events[0]), events[1..]);
    }
  }

  /** From mount, the selection holds at most as many entries as the events
      delivered files. */
  lemma RunFromMount(events: seq<Event>)
    ensures |Run(Initial, events).selected| <= Delivered(events)
    ensures Label(Initial) == DragOrClick
  {
    SelectionSizeBound(Initial, events);
  }

  /** How many files the events deliver in all. */
  function Delivered(events: seq<Event>): nat
    decreases |events|
  {
    if |events| == 0 then 0
    else
      (match events[0]
       case Drop(files) => |files|
       case InputChange(files) => |files|
       case _ => 0) + Delivered(events[1..])
  }
}

=== FILE: item_analysis.dfy ===
/** The backend's `analyze_files_and_folders` command: each submitted item is
    described (identifier, timestamps, readable size, type and extension), and
    the description of a directory carries the descriptions of its children. */
module ItemAnalysis {
  import opened Results
  import opened Text

  type U64 = n: int | 0 <= n < 0x1_0000_0000_0000_0000
  type Byte = b: int | 0 <= b < 256

  /** One submitted item, as deserialized from the front end. */
  datatype ItemInput = ItemInput(
    name: string,
    path: string,
    mimeType: string,
    size: U64,
    lastModified: U64,
    contents: Option<seq<Byte>>,
    isDirectory: bool,
    children: InputChildren)

  /** The optional list of children of a submitted item. */
  datatype InputChildren = NoChildren | Children(items: seq<ItemInput>)

  /** The RFC 3339 rendering of a point in time, kept abstract: the instant
      `millis` milliseconds after the Unix epoch. */
  datatype Timestamp = Rfc3339(millis: nat)

  /** The unit of a size of at least one kilobyte. */
  datatype SizeUnit = KB | MB | GB

  /** A human-readable size: below one kilobyte the exact text, otherwise the
      unit chosen and the byte count it scales (rendered with two decimals). */
  datatype SizeLabel = Bytes(text: string) | Scaled(unit: SizeUnit, bytes: nat)

  /** The coarse classification of an item. */
  datatype ItemType = Directory | Audio | Video | Text | Executable | Image | Other

  /** The text sent back for each classification. */
  function TypeName(t: ItemType): string {
    match t
    case Directory => "Directory"
    case Audio => "Audio"
    case Video => "Video"
    case Text => "Text"
    case Executable => "Executable"
    case Image => "Image"
    case Other => "Other"
  }

  /** The description of one item, as serialized back to the front end. */
  datatype ItemDetails = ItemDetails(
    id: string,
    name: string,
    path: string,
    created: Timestamp,
    modified: Timestamp,
    accessed: Timestamp,
    size: SizeLabel,
    itemType: string,
    extension: string,
    isDirectory: bool,
    children: Option<seq<ItemDetails>>)

  const KiB: nat := 1024
  const MiB: nat := KiB * 1024
  const GiB: nat := MiB * 1024

  /** `format_size`: the largest unit not exceeding the size, or the exact
      count of bytes below one kilobyte. */
  function FormatSize(size: U64): (r: SizeLabel)
    ensures r.Bytes? <==> size < KiB
    ensures r.Scaled? ==> r.bytes == size
    ensures r.Scaled? && r.unit == KB <==> KiB <= size < MiB
    ensures r.Scaled? && r.unit == MB <==> MiB <= size < GiB
    ensures r.Scaled? && r.unit == GB <==> GiB <= size
    ensures r.Bytes? ==> |r.text| > 6 && r.text[|r.text| - 6..] == " bytes"
  {
    if size >= GiB then Scaled(GB, size)
    else if size >= MiB then Scaled(MB, size)
    else if size >= KiB then Scaled(KB, size)
    else Bytes(Decimal(size) + " bytes")
  }

  /** Below one kilobyte, the label is the decimal count followed by " bytes",
      and the count can be read back from it. */
  lemma FormatSizeBytesRoundTrip(size: U64)
    requires size < KiB
    ensures var t := FormatSize(size).text;
            var digits := t[..|t| - 6];
            && IsDecimal(digits) && (|digits| > 1 ==> digits[0] != '0')
            && DecimalValue(digits) == size && t == digits + " bytes"
  {
    var t := FormatSize(size).text;
    assert t[..|t| - 6] == Decimal(size);
    DecimalRoundTrip(size);
  }

  /** `format_time` applied to the epoch plus `lastModified` milliseconds. */
  function FormatTime(lastModified: U64): Timestamp {
    Rfc3339(lastModified)
  }

  /** Rust's `Path::file_name` for a '/'-separated path: the last component,
      ignoring empty and "." components; none when the path ends in "..",
      or has no such component. */
  function FileName(path: string): (r: Option<string>)
    ensures r.Some? ==> '/' !in r.value && r.value != "" && r.value != "." && r.value != ".."
    ensures r.Some? ==> forall c :: c !in path ==> c !in r.value
    ensures '/' !in path && path != "" && path != "." && path != ".." ==> r == Some(path)
  {
    var pieces := Split(path, '/');
    var comps := NormalComponents(pieces);
    assert '/' !in path ==> pieces == [path];
    assert '/' !in path && path != "" && path != "." ==> comps == [path] by {
      if '/' !in path && path != "" && path != "." {
        NormalComponentsOfOne(path);
      }
    }
    if |comps| == 0 || comps[|comps| - 1] == ".." then None
    else
      var last := comps[|comps| - 1];
      assert last in comps;
      assert forall c :: c !in path ==> c !in last by {
        forall c | c !in path ensures c !in last {
          SplitKeepsAbsent(path, '/', c);
        }
      }
      Some(last)
  }

  /** The file name of `dir/file` is `file`, whatever the directory part. */
  lemma FileNameOfLastComponent(dir: string, file: string)
    requires '/' !in file && file != "" && file != "." && file != ".."
    ensures FileName(dir + "/" + file) == Some(file)
  {
    assert dir + "/" + file == dir + ['/'] + file;
    SplitAppendWord(dir, '/', file);
    NormalComponentsAppend(Split(dir, '/'), file);
  }

  /** The pieces of a path that `Path::components` keeps: neither empty nor ".". */
  function NormalComponents(pieces: seq<string>): (r: seq<string>)
    requires forall p <- pieces :: '/' !in p
    ensures forall c <- r :: c != "" && c != "." && '/' !in c && c in pieces
  {
    if |pieces| == 0 then []
    else
      var rest := NormalComponents(pieces[1..]);
      assert pieces[0] in pieces;
      if pieces[0] == "" || pieces[0] == "." then rest else [pieces[0]] + rest
  }

  /** Rust's `Path::extension` on a file name: the text after the last dot,
      none when there is no dot, when the only dot is leading, or for "..". */
  function ExtensionOf(file: string): (r: Option<string>)
    ensures r.Some? ==> '.' in file && r.value == file[LastIndexOf(file, '.') + 1..]
    ensures r.None? <==> file == ".." || '.' !in file || LastIndexOf(file, '.') == 0
  {
    if file == ".." then None
    else if '.' !in file then None
    else
      var i := LastIndexOf(file, '.');
      if i == 0 then None else Some(file[i + 1..])
  }

  /** `get_item_type_and_extension`: the classification by MIME type, its rules applied
      in a fixed order, and the lower-cased extension of the name. */
  function ItemTypeAndExtension(name: string, mimeType: string): (r: (ItemType, string))
    ensures r.0 == Directory <==> mimeType == "directory"
    ensures r.0 == Directory ==> r.1 == ""
    ensures '.' !in name ==> r.1 == ""
  {
    if mimeType == "directory" then (Directory, "")
    else
      var extension := match FileName(name)
        case Some(file) => LowerAscii(ExtensionOf(file).GetOr(""))
        case None => "";
      var itemType :=
        if StartsWith(mimeType, "audio/") then Audio
        else if StartsWith(mimeType, "video/") then Video
        else if StartsWith(mimeType, "text/") || mimeType == "application/pdf" then Text
        else if mimeType == "application/x-msdownload" || mimeType == "application/x-executable" then Executable
        else if StartsWith(mimeType, "image/") then Image
        else Other;
      (itemType, extension)
  }

  /** A directory MIME type decides everything, whatever the name. */
  lemma DirectoryClassification(name: string)
    ensures ItemTypeAndExtension(name, "directory") == (Directory, "")
  {
  }

  /** The classification rules, in their order of precedence: each type is
      chosen exactly when its rule matches and no earlier rule does. */
  lemma ClassificationPrecedence(name: string, mimeType: string)
    requires mimeType != "directory"
    ensures var t := ItemTypeAndExtension(name, mimeType).0;
      && t != Directory
      && (t == Audio <==> StartsWith(mimeType, "audio/"))
      && (t == Video <==> !StartsWith(mimeType, "audio/") && StartsWith(mimeType, "video/"))
      && (t == Text <==>
            !StartsWith(mimeType, "audio/") && !StartsWith(mimeType, "video/")
            && (StartsWith(mimeType, "text/") || mimeType == "application/pdf"))
      && (t == Executable <==>
            !StartsWith(mimeType, "audio/") && !StartsWith(mimeType, "video/")
            && !StartsWith(mimeType, "text/")
            && (mimeType == "application/x-msdownload" || mimeType == "application/x-executable"))
      && (t == Image <==>
            !StartsWith(mimeType, "audio/") && !StartsWith(mimeType, "video/")
            && !StartsWith(mimeType, "text/") && mimeType != "application/pdf"
            && mimeType != "application/x-msdownload" && mimeType != "application/x-executable"
            && StartsWith(mimeType, "image/"))
  {
  }

  /** For a name without a separator, the extension is the lower-cased text
      after its last dot, and empty when the name has no dot or its only dot
      is the leading one. */
  lemma ExtensionOfPlainName(name: string, mimeType: string)
    requires mimeType != "directory"
    requires '/' !in name
    ensures var ext := ItemTypeAndExtension(name, mimeType).1;
      && ('.' !in name ==> ext == "")
      && ('.' in name && LastIndexOf(name, '.') == 0 ==> ext == "")
      && ('.' in name && LastIndexOf(name, '.') > 0 ==>
            ext == LowerAscii(name[LastIndexOf(name, '.') + 1..]))
  {
    if name == "" || name == "." {
      assert Split(name, '/') == [name];
      assert NormalComponents([name]) == [];
    } else if name == ".." {
      assert Split(name, '/') == [name];
      assert NormalComponents([name]) == [name];
      assert LastIndexOf(name, '.') == 1;
    }
  }

  /** Only the last component of a path decides the extension. */
  lemma ExtensionOfLastComponent(dir: string, file: string, mimeType: string)
    requires mimeType != "directory"
    requires '/' !in file && file != "" && file != "." && file != ".."
    ensures ItemTypeAndExtension(dir + "/" + file, mimeType).1 ==
            ItemTypeAndExtension(file, mimeType).1
  {
    FileNameOfLastComponent(dir, file);
  }

  /** A single normal component is kept as it is. */
  lemma NormalComponentsOfOne(piece: string)
    requires '/' !in piece && piece != "" && piece != "."
    ensures NormalComponents([piece]) == [piece]
  {
    assert [piece][1..] == [];
  }

  lemma {:induction false} NormalComponentsAppend(pieces: seq<string>, file: string)
    requires forall p <- pieces :: '/' !in p
    requires '/' !in file && file != "" && file != "."
    ensures NormalComponents(pieces + [file]) == NormalComponents(pieces) + [file]
  {
    if |pieces| > 0 {
      assert (pieces + [file])[1..] == pieces[1..] + [file];
      assert pieces[0] in pieces;
      forall p | p in pieces[1..] ensures '/' !in p {
        assert p in pieces;
      }
      NormalComponentsAppend(pieces[1..], file);
    } else {
      assert NormalComponents([file]) == [file] + NormalComponents([]);
    }
  }

  /** `analyze_item`: the fields derived from the item itself, and for a
      directory with children the analysis of those children (an error in
      any of them is the item's error). A non-directory never has children. */
  function AnalyzeItem(item: ItemInput): (r: Result<ItemDetails, string>)
    ensures r.Ok? ==> Describes(item, r.value)
    decreases item
  {
    var created := FormatTime(item.lastModified);
    var (itemType, extension) := ItemTypeAndExtension(item.name, item.mimeType);
    var children :=
      if item.isDirectory && item.children.Children? then
        (match AnalyzeAll(item.children.items)
         case Ok(ds) => Ok(Some(ds))
         case Err(e) => Err(e))
      else Ok(None);
    match children
    case Err(e) => Err(e)
    case Ok(cs) =>
      Ok(ItemDetails(item.path, item.name, item.path, created, created, created,
                     FormatSize(item.size), TypeName(itemType), extension, item.isDirectory, cs))
  }

  /** `analyze_files_and_folders`: every item analysed in order and collected
      into one list, or an error of one of the items. */
  function AnalyzeAll(items: seq<ItemInput>): (r: Result<seq<ItemDetails>, string>)
    ensures r.Ok? <==> forall i :: 0 <= i < |items| ==> AnalyzeItem(items[i]).Ok?
    ensures r.Ok? ==> |r.value| == |items|
    ensures r.Ok? ==> forall i :: 0 <= i < |items| ==> AnalyzeItem(items[i]) == Ok(r.value[i])
    ensures r.Ok? ==> forall i :: 0 <= i < |items| ==> Describes(items[i], r.value[i])
    ensures r.Err? ==> exists i :: 0 <= i < |items| && AnalyzeItem(items[i]) == Err(r.error)
    decreases items
  {
    if |items| == 0 then Ok([])
    else
      match AnalyzeItem(items[0])
      case Err(e) => Err(e)
      case Ok(d) =>
        match AnalyzeAll(items[1..])
        case Err(e) =>
          assert exists i :: 0 <= i < |items| && AnalyzeItem(items[i]) == Err(e) by {
            var j :| 0 <= j < |items| - 1 && AnalyzeItem(items[1..][j]) == Err(e);
            assert items[1..][j] == items[j + 1];
          }
          Err(e)
        case Ok(ds) =>
          var all := [d] + ds;
          forall i | 0 <= i < |items|
            ensures AnalyzeItem(items[i]) == Ok(all[i]) && Describes(items[i], all[i])
          {
            if i > 0 {
              assert items[1..][i - 1] == items[i] && all[i] == ds[i - 1];
            }
          }
          Ok(all)
  }

  /** What the analysis promises of one item: identifier and timestamps
      derived from it, name and path kept, the size label and classification
      of its fields, no children unless it is a directory, and for a directory
      with children one description per child, in order. */
  predicate Describes(item: ItemInput, d: ItemDetails)
    decreases item
  {
    && d.id == item.path
    && d.name == item.name
    && d.path == item.path
    && d.created == d.modified == d.accessed == FormatTime(item.lastModified)
    && d.size == FormatSize(item.size)
    && d.itemType == TypeName(ItemTypeAndExtension(item.name, item.mimeType).0)
    && d.extension == ItemTypeAndExtension(item.name, item.mimeType).1
    && d.isDirectory == item.isDirectory
    && (d.children.Some? <==> item.isDirectory && item.children.Children?)
    && (d.children.Some? ==>
          && |d.children.value| == |item.children.items|
          && forall i :: 0 <= i < |item.children.items| ==>
               Describes(item.children.items[i], d.children.value[i]))
  }

  /** A description is determined by the item: the promise above leaves no
      freedom in the result. */
  lemma {:induction false} DescribesUnique(item: ItemInput, d1: ItemDetails, d2: ItemDetails)
    requires Describes(item, d1) && Describes(item, d2)
    ensures d1 == d2
    decreases item
  {
    if d1.children.Some? {
      var c1, c2 := d1.children.value, d2.children.value;
      forall i | 0 <= i < |c1| ensures c1[i] == c2[i] {
        DescribesUnique(item.children.items[i], c1[i], c2[i]);
      }
      assert c1 == c2;
    }
  }

  /** The analysis never returns an error: every item, at any depth, is described. */
  lemma {:induction false} AnalyzeItemSucceeds(item: ItemInput)
    ensures AnalyzeItem(item).Ok?
    decreases item
  {
    if item.isDirectory && item.children.Children? {
      AnalyzeAllSucceeds(item.children.items);
    }
  }

  lemma {:induction false} AnalyzeAllSucceeds(items: seq<ItemInput>)
    ensures AnalyzeAll(items).Ok?
    decreases items
  {
    if |items| > 0 {
      AnalyzeItemSucceeds(items[0]);
      AnalyzeAllSucceeds(items[1..]);
    }
  }

  /** A non-directory is described without children, even when some were
      submitted; a directory keeps "no children" as none. */
  lemma ChildrenOnlyForDirectories(item: ItemInput)
    ensures AnalyzeItem(item).Ok?
    ensures !item.isDirectory ==> AnalyzeItem(item).value.children.None?
    ensures item.isDirectory && item.children.NoChildren? ==> AnalyzeItem(item).value.children.None?
  {
    AnalyzeItemSucceeds(item);
  }

  /** The analysis of a directory with children holds, in order, exactly the
      analyses of those children. */
  lemma ChildrenAnalysedInOrder(item: ItemInput)
    requires item.isDirectory && item.children.Children?
    ensures AnalyzeItem(item).Ok?
    ensures var cs := AnalyzeItem(item).value.children.value;
      && |cs| == |item.children.items|
      && forall i :: 0 <= i < |cs| ==> AnalyzeItem(item.children.items[i]) == Ok(cs[i])
  {
    AnalyzeItemSucceeds(item);
  }
}

=== FILE: results.dfy ===
/** Optional values and success/failure results, as returned by the backend
    commands (Rust `Option` and `Result<T, String>`). */
module Results {

  datatype Option<+T> = None | Some(value: T) {

    /** The wrapped value, or `default` when there is none (Rust `unwrap_or`). */
    function GetOr(default: T): T {
      match this
      case Some(v) => v
      case None => default
    }
  }

  datatype Result<+T, +E> = Ok(value: T) | Err(error: E)
}

=== FILE: setting_names.dfy ===
/** `formatSettingName`: turns a setting key such as "files_and_folders" into
    the title shown on its tab. Case mapping is modelled for ASCII only. */
module SettingNames {
  import opened Text

  /** Short words kept in lower case unless they open the name. */
  const StopWords: set<string> :=
    {"and", "of", "with", "for", "the", "in", "a", "to", "on", "at", "by", "an", "as", "but", "or", "nor", "so", "yet"}

  /** The words of a key: underscores read as spaces, split at every space
      (consecutive separators give empty words). */
  function Words(name: string): seq<string> {
    Split(ReplaceAll(name, '_', ' '), ' ')
  }

  /** One word, by position: the first word and every word that is not a stop
      word get an upper-case first letter; other words are lower-cased. */
  function FormatWord(index: nat, word: string): string {
    if index == 0 || LowerAscii(word) !in StopWords then CapitalizeFirst(word) else LowerAscii(word)
  }

  /** Formatting a word changes only the case of its letters. */
  lemma FormatWordSameLower(index: nat, word: string)
    ensures LowerAscii(FormatWord(index, word)) == LowerAscii(word)
  {
    if index == 0 || LowerAscii(word) !in StopWords {
      var c := CapitalizeFirst(word);
      assert forall k :: 0 <= k < |word| ==> LowerChar(c[k]) == LowerChar(word[k]);
    } else {
      LowerAsciiIdempotent(word);
    }
  }

  /** Every word formatted by its position: the words differ from the input
      only in the case of their letters, and the first word never starts with
      a lower-case letter. */
  function FormatWords(words: seq<string>): (r: seq<string>)
    ensures |r| == |words|
    ensures forall i :: 0 <= i < |r| ==> LowerAscii(r[i]) == LowerAscii(words[i])
    ensures |r| > 0 && |r[0]| > 0 ==> !('a' <= r[0][0] <= 'z')
  {
    var r := seq(|words|, i requires 0 <= i < |words| => FormatWord(i, words[i]));
    assert forall i :: 0 <= i < |r| ==> LowerAscii(r[i]) == LowerAscii(words[i]) by {
      forall i | 0 <= i < |r| ensures LowerAscii(r[i]) == LowerAscii(words[i]) {
        FormatWordSameLower(i, words[i]);
      }
    }
    if |r| > 0 && |r[0]| > 0 then
      CapitalizeFirstIdempotent(words[0]);
      r
    else r
  }


  /** Formatting a word maps each character to itself or its other case. */
  lemma FormatWordChars(index: nat, word: string)
    ensures |FormatWord(index, word)| == |word|
    ensures forall k :: 0 <= k < |word| ==>
      FormatWord(index, word)[k] in {word[k], UpperChar(word[k]), LowerChar(word[k])}
  {
  }

  /** A character that is not a letter occurs in a formatted word only where
      it occurred in the word. */
  lemma FormatWordKeepsNonLetter(index: nat, word: string, c: char)
    requires !('a' <= c <= 'z') && !('A' <= c <= 'Z')
    requires c !in word
    ensures c !in FormatWord(index, word)
  {
    FormatWordChars(index, word);
    var f := FormatWord(index, word);
    forall k | 0 <= k < |f| ensures f[k] != c {
      CaseMappingKeepsSeparator(word[k], c);
    }
  }

  /** The formatted words contain no space, so they can be split back out. */
  lemma FormattedWordsHaveNoSpace(name: string)
    ensures forall w <- FormatWords(Words(name)) :: ' ' !in w
  {
    var ws := Words(name);
    var fs := FormatWords(ws);
    forall w | w in fs ensures ' ' !in w {
      var i :| 0 <= i < |fs| && fs[i] == w;
      assert ws[i] in ws;
      FormatWordKeepsNonLetter(i, ws[i], ' ');
    }
  }

  /** `formatSettingName(name)`: underscores all become spaces, so the title
      has no underscore and, for ASCII input, the key's length. */
  function FormatSettingName(name: string): (r: string)
    ensures '_' !in r
    ensures |r| == |name|
  {
    var spaced := ReplaceAll(name, '_', ' ');
    var ws := Words(name);
    var fs := FormatWords(ws);
    assert |Join(fs, ' ')| == |name| by {
      forall i | 0 <= i < |ws| ensures |fs[i]| == |ws[i]| {
        FormatWordChars(i, ws[i]);
      }
      JoinLength(fs, ' ', ws);
      JoinSplit(spaced, ' ');
    }
    assert '_' !in Join(fs, ' ') by {
      SplitKeepsAbsent(spaced, ' ', '_');
      forall w | w in fs ensures '_' !in w {
        var i :| 0 <= i < |fs| && fs[i] == w;
        assert ws[i] in ws;
        FormatWordKeepsNonLetter(i, ws[i], '_');
      }
      JoinChars(fs, ' ', '_');
    }
    Join(fs, ' ')
  }

  /** The title has as many space-separated words as the key has words; the
      first is capitalized even when it is a stop word, later stop words (in
      any case) are lower-cased, and every other word is capitalized. */
  lemma FormatSettingNameWords(name: string)
    ensures var ws := Words(name);
            var out := Split(FormatSettingName(name), ' ');
      && |out| == |ws|
      && out[0] == CapitalizeFirst(ws[0])
      && (forall i :: 1 <= i < |ws| && LowerAscii(ws[i]) in StopWords ==> out[i] == LowerAscii(ws[i]))
      && (forall i :: 1 <= i < |ws| && LowerAscii(ws[i]) !in StopWords ==> out[i] == CapitalizeFirst(ws[i]))
  {
    FormattedWordsHaveNoSpace(name);
    SplitJoin(FormatWords(Words(name)), ' ');
  }

  lemma SpacedKey()
    ensures ReplaceAll("files_and_folders", '_', ' ') == "files and folders"
  {
    var r := ReplaceAll("files_and_folders", '_', ' ');
    assert |r| == 17;
    forall k | 0 <= k < 17 ensures r[k] == "files and folders"[k] {
    }
  }

  lemma ExampleJoins()
    ensures Join(["files", "and", "folders"], ' ') == "files and folders"
    ensures Join(["Files", "and", "Folders"], ' ') == "Files and Folders"
  {
    assert Join(["files", "and", "folders"], ' ') == "files" + " " + ("and" + " " + "folders");
    assert Join(["Files", "and", "Folders"], ' ') == "Files" + " " + ("and" + " " + "Folders");
  }

  lemma ExampleSplit()
    ensures Split("files and folders", ' ') == ["files", "and", "folders"]
  {
    ExampleJoins();
    SplitJoin(["files", "and", "folders"], ' ');
  }

  lemma ExampleWords()
    ensures Words("files_and_folders") == ["files", "and", "folders"]
  {
    SpacedKey();
    ExampleSplit();
  }

  lemma ExampleFormattedWords()
    ensures FormatWord(0, "files") == "Files"
    ensures FormatWord(1, "and") == "and"
    ensures FormatWord(2, "folders") == "Folders"
  {
    assert LowerAscii("and") == "and";
    assert LowerAscii("folders") == "folders";
  }

  /** The key of the files-and-folders source gets the title "Files and Folders". */
  lemma FilesAndFoldersTitle()
    ensures FormatSettingName("files_and_folders") == "Files and Folders"
  {
    ExampleWords();
    ExampleFormattedWords();
    var fs := FormatWords(["files", "and", "folders"]);
    assert fs == ["Files", "and", "Folders"];
    ExampleJoins();
  }
}

=== FILE: settings_card.dfy ===
/** The settings card of one device: the fetched settings object, the error
    line, the loading placeholder, and the toggle of one setting. */
module SettingsCard {
  import opened Results
  import opened Text

  /** The value stored under one setting key. */
  datatype Entry = Entry(enabled: bool, description: string)

  predicate DistinctKeys(entries: seq<(string, Entry)>) {
    forall i, j :: 0 <= i < j < |entries| ==> entries[i].0 != entries[j].0
  }

  /** A settings object as `Object.entries` lists it: each key once, in order. */
  type SettingsObject = entries: seq<(string, Entry)> | DistinctKeys(entries)

  /** `Object.keys`. */
  function Keys(s: SettingsObject): (r: seq<string>)
    ensures |r| == |s|
    ensures forall k :: k in r <==> HasKey(s, k)
    ensures forall i, j :: 0 <= i < j < |r| ==> r[i] != r[j]
  {
    var r := seq(|s|, i requires 0 <= i < |s| => s[i].0);
    assert forall k :: k in r <==> HasKey(s, k) by {
      forall k ensures k in r <==> HasKey(s, k) {
        if k in r {
          var i :| 0 <= i < |r| && r[i] == k;
          assert s[i].0 == k;
        }
        if HasKey(s, k) {
          var i :| 0 <= i < |s| && s[i].0 == k;
          assert r[i] == k;
        }
      }
    }
    r
  }

  predicate HasKey(s: SettingsObject, key: string) {
    exists i :: 0 <= i < |s| && s[i].0 == key
  }

  /** The object written by `handleToggle(key)`: the entry under `key` with
      `enabled` negated and every other property kept; the key keeps its
      place. The key must be present: `handleToggle` reads the entry's
      `enabled`, which throws when the key is absent. */
  function Toggle(s: SettingsObject, key: string): (r: SettingsObject)
    requires HasKey(s, key)
    ensures Keys(r) == Keys(s)
  {
    var r := seq(|s|, i requires 0 <= i < |s| =>
      if s[i].0 == key then (key, s[i].1.(enabled := !s[i].1.enabled)) else s[i]);
    assert forall i :: 0 <= i < |s| ==> r[i].0 == s[i].0;
    r
  }

  /** The toggled key has its `enabled` flipped and its description kept;
      every other entry is unchanged. */
  lemma ToggleSpec(s: SettingsObject, key: string)
    requires HasKey(s, key)
    ensures var r := Toggle(s, key);
      forall i :: 0 <= i < |s| ==>
        if s[i].0 == key then r[i].1.enabled == !s[i].1.enabled && r[i].1.description == s[i].1.description
        else r[i] == s[i]
  {
  }

  /** Toggling the same key twice restores the object. */
  lemma ToggleTwice(s: SettingsObject, key: string)
    requires HasKey(s, key)
    ensures HasKey(Toggle(s, key), key)
    ensures Toggle(Toggle(s, key), key) == s
  {
    var i :| 0 <= i < |s| && s[i].0 == key;
    assert Toggle(s, key)[i].0 == key;
  }

  /** A JavaScript value received where a settings object is expected. */
  datatype JsValue =
    | JsNull
    | JsUndefined
    | JsBoolean(b: bool)
    | JsNumber(n: int)
    | JsString(s: string)
    | JsArray(items: seq<Entry>)
    | JsObject(entries: SettingsObject)

  /** `typeof v === 'object' && v !== null`: objects and arrays pass. */
  predicate IsNonNullObject(v: JsValue) {
    v.JsObject? || v.JsArray?
  }

  /** `Object.entries` of an array: the positions, in decimal, as keys. */
  function ArrayEntries(items: seq<Entry>): (r: SettingsObject)
    ensures |r| == |items|
    ensures forall i :: 0 <= i < |items| ==> r[i] == (Decimal(i), items[i])
  {
    var r := seq(|items|, i requires 0 <= i < |items| => (Decimal(i), items[i]));
    assert DistinctKeys(r) by {
      forall i, j | 0 <= i < j < |r| ensures r[i].0 != r[j].0 {
        DecimalInjective(i, j);
      }
    }
    r
  }

  /** How fetching the settings ended: the value obtained, or the text of
      the error thrown while obtaining it. */
  datatype FetchOutcome = Resolved(value: JsValue) | Rejected(message: string)

  /** How saving the settings ended. */
  datatype SaveOutcome = Saved | SaveFailed(message: string)

  /** The card's state: the settings shown and the error line, if any. */
  datatype Card = Card(settings: SettingsObject, error: Option<string>)

  /** The state on mount: no settings, no error. */
  const InitialCard := Card([], None)

  const InvalidDataError := "Error: Invalid settings data received"

  /** `fetchSettings`: a non-null object replaces the settings and leaves the
      error line alone; anything else, or a failure, sets the error line and
      keeps the settings. */
  function ApplyFetch(c: Card, outcome: FetchOutcome): (r: Card)
    ensures outcome.Resolved? && IsNonNullObject(outcome.value) ==> r.error == c.error
    ensures !(outcome.Resolved? && IsNonNullObject(outcome.value)) ==> r.settings == c.settings && r.error.Some?
    ensures outcome.Resolved? && outcome.value.JsObject? ==> r.settings == outcome.value.entries
    ensures outcome.Resolved? && outcome.value.JsArray? ==> r.settings == ArrayEntries(outcome.value.items)
    ensures outcome.Rejected? ==> r.error == Some(outcome.message)
  {
    match outcome
    case Rejected(message) => c.(error := Some(message))
    case Resolved(JsObject(entries)) => c.(settings := entries)
    case Resolved(JsArray(items)) => c.(settings := ArrayEntries(items))
    case Resolved(_) => c.(error := Some(InvalidDataError))
  }

  /** A value that is not a non-null object is reported as invalid data. */
  lemma InvalidFetchReported(c: Card, v: JsValue)
    requires !IsNonNullObject(v)
    ensures ApplyFetch(c, Resolved(v)) == Card(c.settings, Some(InvalidDataError))
  {
  }

  /** `handleToggle(key)`: the toggled object is shown (whatever the save
      does); a successful save clears the error line, a failed one sets it. */
  function HandleToggle(c: Card, key: string, saved: SaveOutcome): (r: Card)
    requires HasKey(c.settings, key)
    ensures r.settings == Toggle(c.settings, key)
    ensures saved.Saved? <==> r.error.None?
  {
    var error := match saved
      case Saved => None
      case SaveFailed(message) => Some("Failed to save settings: " + message);
    Card(Toggle(c.settings, key), error)
  }

  /** The placeholder shows while the settings object has no keys, that is,
      exactly when it has no entries. */
  predicate Loading(c: Card)
    ensures Loading(c) <==> c.settings == []
  {
    |Keys(c.settings)| == 0
  }

  /** The card starts loading; a fetched non-empty object ends it; a toggle,
      possible only once loaded, never brings it back. */
  lemma LoadingSpec(c: Card, entries: SettingsObject, key: string, saved: SaveOutcome)
    ensures Loading(InitialCard)
    ensures Loading(ApplyFetch(c, Resolved(JsObject(entries)))) <==> |entries| == 0
    ensures HasKey(c.settings, key) ==> !Loading(c) && !Loading(HandleToggle(c, key, saved))
  {
  }
}

=== FILE: settings_merge.dfy ===
/** The backend's device settings record and the merge that turns the rows of
    a `device_settings` query into one `Settings` value (the pure part of the
    `get_device_settings` command). */
module SettingsMerge {
  import opened Results

  /** One toggleable data source. */
  datatype SettingItem = SettingItem(enabled: bool, description: string)

  /** The eight data sources a device can share, one field each. */
  datatype Settings = Settings(
    filesAndFolders: SettingItem,
    screen: SettingItem,
    session: SettingItem,
    processes: SettingItem,
    keyboard: SettingItem,
    mouse: SettingItem,
    camera: SettingItem,
    mic: SettingItem)

  /** Names the fields of `Settings`. */
  datatype Key = FilesAndFolders | Screen | Session | Processes | Keyboard | Mouse | Camera | Mic

  /** The serialized name of a field. */
  function KeyName(k: Key): string {
    match k
    case FilesAndFolders => "files_and_folders"
    case Screen => "screen"
    case Session => "session"
    case Processes => "processes"
    case Keyboard => "keyboard"
    case Mouse => "mouse"
    case Camera => "camera"
    case Mic => "mic"
  }

  /** The field a serialized name denotes, if any. */
  function KeyOf(name: string): (r: Option<Key>)
    ensures r.Some? ==> KeyName(r.value) == name
    ensures r.None? ==> forall k: Key :: KeyName(k) != name
  {
    match name
    case "files_and_folders" => Some(FilesAndFolders)
    case "screen" => Some(Screen)
    case "session" => Some(Session)
    case "processes" => Some(Processes)
    case "keyboard" => Some(Keyboard)
    case "mouse" => Some(Mouse)
    case "camera" => Some(Camera)
    case "mic" => Some(Mic)
    case _ => None
  }

  /** Names and keys are in one-to-one correspondence. */
  lemma KeyNameRoundTrip(k: Key)
    ensures KeyOf(KeyName(k)) == Some(k)
  {
  }

  function Get(s: Settings, k: Key): SettingItem {
    match k
    case FilesAndFolders => s.filesAndFolders
    case Screen => s.screen
    case Session => s.session
    case Processes => s.processes
    case Keyboard => s.keyboard
    case Mouse => s.mouse
    case Camera => s.camera
    case Mic => s.mic
  }

  /** The record with field `k` replaced by `item` and every other field kept. */
  function Set(s: Settings, k: Key, item: SettingItem): (r: Settings)
    ensures Get(r, k) == item
    ensures forall k' :: k' != k ==> Get(r, k') == Get(s, k')
  {
    match k
    case FilesAndFolders => s.(filesAndFolders := item)
    case Screen => s.(screen := item)
    case Session => s.(session := item)
    case Processes => s.(processes := item)
    case Keyboard => s.(keyboard := item)
    case Mouse => s.(mouse := item)
    case Camera => s.(camera := item)
    case Mic => s.(mic := item)
  }

  const ScreenText := "Records screen activity and learns what you do based on your screen activity."
  const SessionText := "Captures what apps and sites you have open in any session. Learns how your sessions evolve over time."
  const ProcessesText := "Captures what background processes are running to determine what functionality you rely on while you compute."
  const KeyboardText := "Learns your typing patterns and keyboard shortcuts to better learn how you communicate and what functionality you rely on."
  const MouseText := "Captures your mouse movements and clicks to learn how you interact with your computer."
  const CameraText := "Sees how you react while using your devices to determine what events trigger what emotions and behaviors."
  const MicText := "Listens to you while you're on calls and comments you might have while using your device in order to better understand you."

  /** The fixed description of each source in the default record (the
      files-and-folders entry reuses the screen text). */
  function DefaultDescription(k: Key): string {
    match k
    case FilesAndFolders => ScreenText
    case Screen => ScreenText
    case Session => SessionText
    case Processes => ProcessesText
    case Keyboard => KeyboardText
    case Mouse => MouseText
    case Camera => CameraText
    case Mic => MicText
  }

  /** `Settings::default`: every source disabled, with its fixed description. */
  function Default(): (r: Settings)
    ensures forall k :: Get(r, k) == SettingItem(false, DefaultDescription(k))
  {
    Settings(
      SettingItem(false, DefaultDescription(FilesAndFolders)),
      SettingItem(false, DefaultDescription(Screen)),
      SettingItem(false, DefaultDescription(Session)),
      SettingItem(false, DefaultDescription(Processes)),
      SettingItem(false, DefaultDescription(Keyboard)),
      SettingItem(false, DefaultDescription(Mouse)),
      SettingItem(false, DefaultDescription(Camera)),
      SettingItem(false, DefaultDescription(Mic)))
  }

  /** A parsed JSON value (`serde_json::Value`); an object lists its entries in
      iteration order. */
  datatype Json =
    | JNull
    | JBool(b: bool)
    | JNumber(n: int)
    | JString(s: string)
    | JArray(items: seq<Json>)
    | JObject(entries: seq<(string, Json)>)

  /** serde_json's maps hold each key once. */
  predicate DistinctKeys(entries: seq<(string, Json)>) {
    forall i, j :: 0 <= i < j < |entries| ==> entries[i].0 != entries[j].0
  }

  /** `map.get(key)`: the value stored under `key` (the last one, should the
      entries repeat a key). */
  function Lookup(entries: seq<(string, Json)>, key: string): (r: Option<Json>)
    ensures r.Some? <==> exists i :: 0 <= i < |entries| && entries[i].0 == key
    ensures r.Some? ==> (key, r.value) in entries
  {
    if |entries| == 0 then None
    else if entries[|entries| - 1].0 == key then Some(entries[|entries| - 1].1)
    else
      var r := Lookup(entries[..|entries| - 1], key);
      assert forall i :: 0 <= i < |entries| - 1 ==> entries[..|entries| - 1][i] == entries[i];
      r
  }

  /** One stored setting: `enabled` falls back to false unless it is a JSON
      boolean, `description` to the empty string unless it is a JSON string. */
  function ParseItem(fields: seq<(string, Json)>): (item: SettingItem)
    ensures item.enabled <==> Lookup(fields, "enabled") == Some(JBool(true))
    ensures Lookup(fields, "description").Some? && Lookup(fields, "description").value.JString?
            ==> item.description == Lookup(fields, "description").value.s
    ensures !(Lookup(fields, "description").Some? && Lookup(fields, "description").value.JString?)
            ==> item.description == ""
  {
    var enabled := match Lookup(fields, "enabled") case Some(JBool(b)) => b case _ => false;
    var description := match Lookup(fields, "description") case Some(JString(d)) => d case _ => "";
    SettingItem(enabled, description)
  }

  /** One iteration of the merge loop: an object value under a known key
      replaces that field; anything else is ignored. */
  function MergeEntry(acc: Settings, entry: (string, Json)): Settings {
    var (key, value) := entry;
    if value.JObject? && KeyOf(key).Some? then Set(acc, KeyOf(key).value, ParseItem(value.entries))
    else acc
  }

  /** The merge loop over a settings object's entries, in iteration order. */
  function MergeEntries(acc: Settings, entries: seq<(string, Json)>): Settings
    decreases |entries|
  {
    if |entries| == 0 then acc
    else MergeEntry(MergeEntries(acc, entries[..|entries| - 1]), entries[|entries| - 1])
  }

  /** The fields of the last entry under `key` whose value is an object. */
  function LastObject(entries: seq<(string, Json)>, key: string): Option<seq<(string, Json)>> {
    if |entries| == 0 then None
    else if entries[|entries| - 1].0 == key && entries[|entries| - 1].1.JObject? then
      Some(entries[|entries| - 1].1.entries)
    else LastObject(entries[..|entries| - 1], key)
  }

  /** After the loop, each field holds the item parsed from the last object
      stored under its name, or what it held before when there is none. */
  lemma {:induction false} MergeEntriesField(acc: Settings, entries: seq<(string, Json)>, k: Key)
    ensures Get(MergeEntries(acc, entries), k) ==
            match LastObject(entries, KeyName(k))
            case Some(fields) => ParseItem(fields)
            case None => Get(acc, k)
  {
    if |entries| > 0 {
      MergeEntriesField(acc, entries[..|entries| - 1], k);
      var (key, value) := entries[|entries| - 1];
      if value.JObject? && KeyOf(key).Some? && key != KeyName(k) {
        assert KeyOf(key).value != k;
      }
    }
  }

  /** In a key-unique object, the last object under a key is the value the key
      maps to, when that value is an object. */
  lemma {:induction false} LastObjectIsLookup(entries: seq<(string, Json)>, key: string)
    requires DistinctKeys(entries)
    ensures LastObject(entries, key) ==
            match Lookup(entries, key)
            case Some(JObject(fields)) => Some(fields)
            case _ => None
  {
    if |entries| > 0 {
      var prefix := entries[..|entries| - 1];
      assert DistinctKeys(prefix) by {
        forall i, j | 0 <= i < j < |prefix| ensures prefix[i].0 != prefix[j].0 {
          assert prefix[i] == entries[i] && prefix[j] == entries[j];
        }
      }
      LastObjectIsLookup(prefix, key);
      if entries[|entries| - 1].0 == key {
        assert forall i :: 0 <= i < |prefix| ==> prefix[i].0 != key by {
          forall i | 0 <= i < |prefix| ensures prefix[i].0 != key {
            assert prefix[i] == entries[i];
          }
        }
        assert Lookup(prefix, key).None?;
        assert LastObject(prefix, key).None? by {
          LastObjectAbsent(prefix, key);
        }
      }
    }
  }

  /** With no entry under `key` there is no last object under it. */
  lemma {:induction false} LastObjectAbsent(entries: seq<(string, Json)>, key: string)
    requires forall i :: 0 <= i < |entries| ==> entries[i].0 != key
    ensures LastObject(entries, key).None?
  {
    if |entries| > 0 {
      var prefix := entries[..|entries| - 1];
      assert forall i :: 0 <= i < |prefix| ==> prefix[i] == entries[i];
      LastObjectAbsent(prefix, key);
    }
  }

  /** The `settings` object of a row, when the row is an object holding one. */
  function SettingsObject(row: Json): Option<seq<(string, Json)>> {
    if row.JObject? then
      match Lookup(row.entries, "settings")
      case Some(JObject(fields)) => Some(fields)
      case _ => None
    else None
  }

  /** The merge in `get_device_settings`: no rows gives the defaults;
      otherwise the last row's settings object is merged into the defaults. */
  function MergeRows(rows: seq<Json>): (r: Settings)
    ensures |rows| == 0 ==> r == Default()
    ensures forall k :: Get(r, k) != Get(Default(), k) ==>
      && |rows| > 0
      && SettingsObject(rows[|rows| - 1]).Some?
      && LastObject(SettingsObject(rows[|rows| - 1]).value, KeyName(k)).Some?
  {
    if |rows| == 0 then Default()
    else
      match SettingsObject(rows[|rows| - 1])
      case Some(fields) =>
        assert forall k :: Get(MergeEntries(Default(), fields), k) != Get(Default(), k) ==>
                 LastObject(fields, KeyName(k)).Some? by {
          forall k ensures Get(MergeEntries(Default(), fields), k) != Get(Default(), k) ==>
                             LastObject(fields, KeyName(k)).Some? {
            MergeEntriesField(Default(), fields, k);
          }
        }
        MergeEntries(Default(), fields)
      case None => Default()
  }

  /** What a field of the merged settings holds, stated without the loop:
      the item parsed from the object stored under the field's name in the
      last row, else the default. */
  function ExpectedField(rows: seq<Json>, k: Key): SettingItem {
    if |rows| == 0 then Get(Default(), k)
    else
      match SettingsObject(rows[|rows| - 1])
      case Some(fields) =>
        (match Lookup(fields, KeyName(k))
         case Some(JObject(item)) => ParseItem(item)
         case _ => Get(Default(), k))
      case None => Get(Default(), k)
  }

  /** The merge fold agrees field by field with the direct description. */
  lemma MergeRowsSpec(rows: seq<Json>)
    requires |rows| > 0 && SettingsObject(rows[|rows| - 1]).Some? ==>
             DistinctKeys(SettingsObject(rows[|rows| - 1]).value)
    ensures forall k :: Get(MergeRows(rows), k) == ExpectedField(rows, k)
  {
    forall k: Key ensures Get(MergeRows(rows), k) == ExpectedField(rows, k) {
      if |rows| > 0 && SettingsObject(rows[|rows| - 1]).Some? {
        var fields := SettingsObject(rows[|rows| - 1]).value;
        MergeEntriesField(Default(), fields, k);
        LastObjectIsLookup(fields, KeyName(k));
      }
    }
  }

  /** Only the last row matters. */
  lemma MergeRowsUsesLastRow(rows: seq<Json>, last: Json)
    ensures MergeRows(rows + [last]) == MergeRows([last])
  {
  }

  /** An entry under a name that is not a known key changes nothing, and
      neither does a non-object value under any name. */
  lemma MergeIgnoresUnknown(acc: Settings, entries: seq<(string, Json)>, key: string, value: Json)
    requires KeyOf(key).None? || !value.JObject?
    ensures MergeEntries(acc, entries + [(key, value)]) == MergeEntries(acc, entries)
  {
    assert (entries + [(key, value)])[..|entries|] == entries;
  }

  /** An empty settings object, or a last row without one, gives the defaults. */
  lemma MergeWithoutEntries(rows: seq<Json>)
    requires |rows| > 0
    requires SettingsObject(rows[|rows| - 1]).None? || SettingsObject(rows[|rows| - 1]) == Some([])
    ensures MergeRows(rows) == Default()
  {
  }

  /** The response body must parse as a JSON array of rows; anything else is
      reported as a parse error. */
  function ParseResponse(body: Json): (r: Result<Settings, string>)
    ensures r.Ok? <==> body.JArray?
    ensures body == JArray([]) ==> r == Ok(Default())
    ensures r.Err? ==> r.error == "Error parsing settings"
  {
    if body.JArray? then Ok(MergeRows(body.items)) else Err("Error parsing settings")
  }
}

=== FILE: settings_tabs.dfy ===
/** The tab bar over a device's settings: one tab per enabled setting, in the
    order of the settings object, valued by the key and titled with its
    formatted name. */
module SettingsTabs {
  import opened SettingsCard
  import opened SettingNames

  datatype Tab = Tab(value: string, title: string)

  /** The tab of one setting key. */
  function TabFor(key: string): (t: Tab)
    ensures t.value == key
  {
    Tab(key, FormatSettingName(key))
  }

  /** The keys of the enabled entries, in order: the `filter` over
      `Object.entries(settings)`. */
  function EnabledKeys(s: seq<(string, Entry)>): (keys: seq<string>)
    ensures |keys| <= |s|
    decreases |s|
  {
    if |s| == 0 then []
    else EnabledKeys(s[..|s| - 1]) + (if s[|s| - 1].1.enabled then [s[|s| - 1].0] else [])
  }

  /** The tabs rendered for a settings object: one per enabled key, in order. */
  function Tabs(s: seq<(string, Entry)>): (r: seq<Tab>)
    ensures |r| <= |s|
    ensures |r| == |EnabledKeys(s)|
    ensures forall j :: 0 <= j < |r| ==> r[j].value == EnabledKeys(s)[j]
  {
    var keys := EnabledKeys(s);
    seq(|keys|, j requires 0 <= j < |keys| => TabFor(keys[j]))
  }

  /** A key is enabled-listed exactly when some enabled entry has it. */
  lemma {:induction false} EnabledKeysMembership(s: seq<(string, Entry)>, key: string)
    ensures key in EnabledKeys(s) <==> exists i :: 0 <= i < |s| && s[i].1.enabled && s[i].0 == key
    decreases |s|
  {
    if |s| > 0 {
      var prefix := s[..|s| - 1];
      EnabledKeysMembership(prefix, key);
      assert forall i :: 0 <= i < |prefix| ==> prefix[i] == s[i];
      if key in EnabledKeys(prefix) {
        var i :| 0 <= i < |prefix| && prefix[i].1.enabled && prefix[i].0 == key;
        assert s[i].1.enabled && s[i].0 == key;
      }
    }
  }

  /** A tab is shown exactly for the entries that are enabled. */
  lemma TabsMembership(s: seq<(string, Entry)>, t: Tab)
    ensures t in Tabs(s) <==> exists i :: 0 <= i < |s| && s[i].1.enabled && t == TabFor(s[i].0)
  {
    var keys := EnabledKeys(s);
    var tabs := Tabs(s);
    EnabledKeysMembership(s, t.value);
    if t in tabs {
      var j :| 0 <= j < |tabs| && tabs[j] == t;
      assert keys[j] in keys;
      var i :| 0 <= i < |s| && s[i].1.enabled && s[i].0 == t.value;
      assert t == TabFor(s[i].0);
    }
    if exists i :: 0 <= i < |s| && s[i].1.enabled && t == TabFor(s[i].0) {
      var i :| 0 <= i < |s| && s[i].1.enabled && t == TabFor(s[i].0);
      assert t.value in keys;
      var j :| 0 <= j < |keys| && keys[j] == t.value;
      assert tabs[j] == t;
    }
  }

  /** In a settings object (keys distinct), a key has a tab exactly when its
      setting is enabled; a disabled setting never has one. */
  lemma TabsExactlyEnabled(s: SettingsObject)
    ensures forall i :: 0 <= i < |s| ==> (TabFor(s[i].0) in Tabs(s) <==> s[i].1.enabled)
  {
    forall i | 0 <= i < |s| ensures TabFor(s[i].0) in Tabs(s) <==> s[i].1.enabled {
      var t := TabFor(s[i].0);
      TabsMembership(s, t);
      if t in Tabs(s) {
        var i' :| 0 <= i' < |s| && s[i'].1.enabled && t == TabFor(s[i'].0);
        assert s[i'].0 == t.value == s[i].0;
        assert i' == i;
      }
    }
  }

  /** Every tab's value is the key of an enabled setting. */
  lemma TabValuesAreEnabledKeys(s: SettingsObject, t: Tab)
    requires t in Tabs(s)
    ensures exists i :: 0 <= i < |s| && s[i].1.enabled && s[i].0 == t.value
    ensures t.title == FormatSettingName(t.value)
  {
    TabsMembership(s, t);
  }

  /** The enabled keys of one more entry: those of the prefix, then the
      entry's own key when it is enabled. */
  lemma EnabledKeysExtend(s: seq<(string, Entry)>, k: nat)
    requires k < |s|
    ensures EnabledKeys(s[..k + 1]) == EnabledKeys(s[..k]) + (if s[k].1.enabled then [s[k].0] else [])
  {
    assert s[..k + 1][..k] == s[..k];
  }

  /** The positions of the enabled entries, found by one pass over the
      object: they are increasing, so the tabs keep the entries' order, and
      the tab at each place is that of the entry at the matching position. */
  method EnabledPositions(s: seq<(string, Entry)>) returns (idx: seq<nat>)
    ensures |idx| == |Tabs(s)|
    ensures forall j :: 0 <= j < |idx| ==> idx[j] < |s| && s[idx[j]].1.enabled
    ensures forall j :: 0 <= j < |idx| ==> Tabs(s)[j] == TabFor(s[idx[j]].0)
    ensures forall j, j' :: 0 <= j < j' < |idx| ==> idx[j] < idx[j']
    ensures forall i :: 0 <= i < |s| && s[i].1.enabled ==> i in idx
  {
    idx := [];
    var k := 0;
    while k < |s|
      invariant 0 <= k <= |s|
      invariant |idx| == |EnabledKeys(s[..k])|
      invariant forall j :: 0 <= j < |idx| ==> idx[j] < k && s[idx[j]].1.enabled
      invariant forall j :: 0 <= j < |idx| ==> EnabledKeys(s[..k])[j] == s[idx[j]].0
      invariant forall j, j' :: 0 <= j < j' < |idx| ==> idx[j] < idx[j']
      invariant forall i :: 0 <= i < k && s[i].1.enabled ==> i in idx
    {
      EnabledKeysExtend(s, k);
      if s[k].1.enabled {
        idx := idx + [k];
      }
      k := k + 1;
    }
    assert s[..|s|] == s;
    forall j | 0 <= j < |idx| ensures Tabs(s)[j] == TabFor(s[idx[j]].0) {
      assert Tabs(s)[j] == TabFor(EnabledKeys(s)[j]);
    }
  }
}

=== FILE: text.dfy ===
/** Text primitives shared by the user interface and the backend: ASCII case
    mapping (JavaScript `toUpperCase`/`toLowerCase`, Rust `to_lowercase`,
    restricted to ASCII), splitting on and joining with a separator character,
    and decimal rendering of natural numbers. */
module Text {

  /** Upper-cases an ASCII lower-case letter; every other character is kept. */
  function UpperChar(c: char): char {
    if 'a' <= c <= 'z' then (c as int - 32) as char else c
  }

  /** Lower-cases an ASCII upper-case letter; every other character is kept. */
  function LowerChar(c: char): char {
    if 'A' <= c <= 'Z' then (c as int + 32) as char else c
  }

  /** A case-mapped character is a separator exactly when the original is. */
  lemma CaseMappingKeepsSeparator(c: char, sep: char)
    requires !('a' <= sep <= 'z') && !('A' <= sep <= 'Z')
    ensures UpperChar(c) == sep <==> c == sep
    ensures LowerChar(c) == sep <==> c == sep
  {
  }

  /** The whole string lower-cased, character by character: no upper-case
      letter remains, and each character still upper-cases to what the
      original one does, so only the case of letters changes. */
  function LowerAscii(s: string): (r: string)
    ensures |r| == |s|
    ensures forall i :: 0 <= i < |r| ==> !('A' <= r[i] <= 'Z')
    ensures forall i :: 0 <= i < |r| ==> UpperChar(r[i]) == UpperChar(s[i])
  {
    seq(|s|, i requires 0 <= i < |s| => LowerChar(s[i]))
  }

  /** Lower-casing a lower-cased string changes nothing. */
  lemma LowerAsciiIdempotent(s: string)
    ensures LowerAscii(LowerAscii(s)) == LowerAscii(s)
  {
  }

  /** `s.charAt(0).toUpperCase() + s.slice(1)`: the first character upper-cased,
      the rest kept; the empty string stays empty. */
  function CapitalizeFirst(s: string): (r: string)
    ensures |r| == |s|
    ensures |s| > 0 ==> r[0] == UpperChar(s[0]) && r[1..] == s[1..]
  {
    if |s| == 0 then "" else [UpperChar(s[0])] + s[1..]
  }

  /** Capitalizing twice is the same as capitalizing once, and the result never
      starts with a lower-case ASCII letter. */
  lemma CapitalizeFirstIdempotent(s: string)
    ensures CapitalizeFirst(CapitalizeFirst(s)) == CapitalizeFirst(s)
    ensures |s| > 0 ==> !('a' <= CapitalizeFirst(s)[0] <= 'z')
  {
  }

  /** Every occurrence of `from` replaced by `to` (JavaScript `replace(/x/g, y)`
      for a one-character pattern). */
  function ReplaceAll(s: string, from: char, to: char): (r: string)
    ensures |r| == |s|
    ensures from != to ==> from !in r
    ensures forall i :: 0 <= i < |s| ==> r[i] == (if s[i] == from then to else s[i])
  {
    seq(|s|, i requires 0 <= i < |s| => if s[i] == from then to else s[i])
  }

  /** `s.startsWith(prefix)`. */
  predicate StartsWith(s: string, prefix: string) {
    |prefix| <= |s| && s[..|prefix|] == prefix
  }

  /** Position of the first occurrence of `c` in `s`. */
  function IndexOf(s: string, c: char): (i: nat)
    requires c in s
    ensures i < |s| && s[i] == c
    ensures c !in s[..i]
  {
    if s[0] == c then 0
    else
      var j := IndexOf(s[1..], c);
      assert s[..j + 1] == [s[0]] + s[1..][..j];
      j + 1
  }

  /** Position of the last occurrence of `c` in `s`. */
  function LastIndexOf(s: string, c: char): (i: nat)
    requires c in s
    ensures i < |s| && s[i] == c
    ensures c !in s[i + 1..]
  {
    if s[|s| - 1] == c then |s| - 1
    else
      assert s == s[..|s| - 1] + [s[|s| - 1]];
      LastIndexOf(s[..|s| - 1], c)
  }

  /** JavaScript `s.split(sep)` for a one-character separator: the pieces
      between separators, including empty ones; never an empty list. */
  function Split(s: string, sep: char): (words: seq<string>)
    ensures |words| >= 1
    ensures forall w <- words :: sep !in w
    decreases |s|
  {
    if sep !in s then [s]
    else
      var i := IndexOf(s, sep);
      [s[..i]] + Split(s[i + 1..], sep)
  }

  /** JavaScript `words.join(sep)`. */
  function Join(words: seq<string>, sep: char): string {
    if |words| == 0 then ""
    else if |words| == 1 then words[0]
    else words[0] + [sep] + Join(words[1..], sep)
  }

  /** The pieces of a split contain no character absent from the string. */
  lemma {:induction false} SplitKeepsAbsent(s: string, sep: char, c: char)
    requires c !in s
    ensures forall w <- Split(s, sep) :: c !in w
    decreases |s|
  {
    if sep in s {
      var i := IndexOf(s, sep);
      assert c !in s[..i] by {
        forall k | 0 <= k < i ensures s[..i][k] != c {
          assert s[..i][k] == s[k];
        }
      }
      var rest := s[i + 1..];
      assert c !in rest by {
        forall k | 0 <= k < |rest| ensures rest[k] != c {
          assert rest[k] == s[i + 1 + k];
        }
      }
      SplitKeepsAbsent(s[i + 1..], sep, c);
    }
  }

  /** Joining the pieces of a split gives back the original string. */
  lemma {:induction false} JoinSplit(s: string, sep: char)
    ensures Join(Split(s, sep), sep) == s
    decreases |s|
  {
    if sep in s {
      var i := IndexOf(s, sep);
      JoinSplit(s[i + 1..], sep);
      assert Split(s, sep)[1..] == Split(s[i + 1..], sep);
      assert s == s[..i] + [sep] + s[i + 1..];
    }
  }

  /** The first separator of `w + [sep] + t` sits right after `w` when `w` has none. */
  lemma IndexOfAfterWord(w: string, sep: char, t: string)
    requires sep !in w
    ensures sep in w + [sep] + t
    ensures IndexOf(w + [sep] + t, sep) == |w|
  {
    var s := w + [sep] + t;
    assert s[|w|] == sep;
    assert s[..|w|] == w;
  }

  /** Splitting a join of separator-free words gives back the words. */
  lemma {:induction false} SplitJoin(words: seq<string>, sep: char)
    requires |words| >= 1
    requires forall w <- words :: sep !in w
    ensures Split(Join(words, sep), sep) == words
  {
    if |words| == 1 {
    } else {
      var w := words[0];
      var rest := Join(words[1..], sep);
      var s := w + [sep] + rest;
      assert Join(words, sep) == s;
      IndexOfAfterWord(w, sep, rest);
      assert s[..|w|] == w;
      assert s[|w| + 1..] == rest;
      SplitJoin(words[1..], sep);
      assert words == [w] + words[1..];
    }
  }

  /** Joining one more word appends a separator and that word. */
  lemma {:induction false} JoinAppend(words: seq<string>, sep: char, w: string)
    requires |words| >= 1
    ensures Join(words + [w], sep) == Join(words, sep) + [sep] + w
  {
    if |words| > 1 {
      assert (words + [w])[1..] == words[1..] + [w];
      JoinAppend(words[1..], sep, w);
    }
  }

  /** Appending a separator and a separator-free word adds that word as the
      last piece of the split. */
  lemma SplitAppendWord(s: string, sep: char, w: string)
    requires sep !in w
    ensures Split(s + [sep] + w, sep) == Split(s, sep) + [w]
  {
    var words := Split(s, sep);
    JoinSplit(s, sep);
    JoinAppend(words, sep, w);
    SplitJoin(words + [w], sep);
  }

  /** A joined string has the words' lengths plus one per separator. */
  lemma {:induction false} JoinLength(words: seq<string>, sep: char, others: seq<string>)
    requires |words| == |others|
    requires forall i :: 0 <= i < |words| ==> |words[i]| == |others[i]|
    ensures |Join(words, sep)| == |Join(others, sep)|
  {
    if |words| > 1 {
      JoinLength(words[1..], sep, others[1..]);
    }
  }

  /** Every character of a join comes from a word or is the separator. */
  lemma {:induction false} JoinChars(words: seq<string>, sep: char, c: char)
    requires c != sep
    requires forall w <- words :: c !in w
    ensures c !in Join(words, sep)
  {
    if |words| > 1 {
      assert words[0] in words;
      forall w | w in words[1..] ensures c !in w {
        assert w in words;
      }
      JoinChars(words[1..], sep, c);
    } else if |words| == 1 {
      assert words[0] in words;
    }
  }

  predicate IsDigit(c: char) {
    '0' <= c <= '9'
  }

  predicate IsDecimal(s: string) {
    forall c <- s :: IsDigit(c)
  }

  function DigitChar(d: nat): char
    requires d < 10
  {
    ('0' as int + d) as char
  }

  /** Rust's `{}` and JavaScript's `String(n)` rendering of a natural number:
      base ten, no leading zeros. */
  function Decimal(n: nat): (s: string)
    ensures |s| >= 1
    ensures IsDecimal(s)
    ensures |s| > 1 ==> s[0] != '0'
  {
    if n < 10 then [DigitChar(n)] else Decimal(n / 10) + [DigitChar(n % 10)]
  }

  /** The number a string of decimal digits denotes. */
  function DecimalValue(s: string): nat
    requires IsDecimal(s)
  {
    if |s| == 0 then 0
    else
      assert forall c <- s[..|s| - 1] :: c in s;
      assert s[|s| - 1] in s;
      10 * DecimalValue(s[..|s| - 1]) + (s[|s| - 1] as int - '0' as int)
  }

  /** Reading back a rendered number gives the number. */
  lemma {:induction false} DecimalRoundTrip(n: nat)
    ensures DecimalValue(Decimal(n)) == n
  {
    if n >= 10 {
      DecimalRoundTrip(n / 10);
      var s := Decimal(n);
      assert s[..|s| - 1] == Decimal(n / 10);
    }
  }

  /** Distinct numbers render as distinct strings. */
  lemma DecimalInjective(m: nat, n: nat)
    requires m != n
    ensures Decimal(m) != Decimal(n)
  {
    DecimalRoundTrip(m);
    DecimalRoundTrip(n);
  }
}
